=== FILE: README.md ===
# LearnXtrade credit ledger — a Dafny model

LearnXtrade is an e-learning marketplace. Students buy a platform currency,
"credits", through an external payment provider and spend them on courses.
They can also register for a course for free. This project models the server
code that keeps the credit balance, the credit record with its transaction
log, and the enrollment list. It also models the text splitter the chatbot
uses before it embeds documents.

Each HTTP handler is a pure transition from the state before a request to the
state after it, together with the response status and body. The state is a
map of students, a map of credit records and the course catalogue:

- `wrappers.dfy` (`Wrappers`): `Option`, for document and request fields that may be absent.
- `models.dfy` (`Models`): the student, credit record, transaction and course
  documents. It also holds the read-side views `Balance`, `RecordAmount`,
  `Purchased`, `Spent` and `Ledger`, which read as 0 or empty when a document
  is missing.
- `http.dfy` (`Http`): the responses and the JavaScript notion of a truthy request field.
- `credit_controller.dfy` (`CreditController`): `purchaseCredits`,
  `completeCreditPurchase`, `purchaseCourseWithCredits` and `getCreditBalance`.
- `student_controller.dfy` (`StudentController`): `registerForCourse`, and the
  validation and duplicate checks of `registerUser` and `loginUser`.
- `credit_ledger.dfy` (`CreditLedger`): every handler as one state machine.
  It proves the invariants that the machine keeps over any sequence of
  requests, plus the facts about the handlers that are gaps rather than
  guarantees.
- `chunking.dfy` (`Chunking`): `chunk_text` with Python's slice semantics.

The schemas become datatypes:

- A transaction's kind is exactly `Purchase` or `Spend`. Its amount is always
  present. Its description, payment id and provider transaction id are
  optional. Its timestamp is the clock reading handed in.
- A student's `courses` is a list of `{courseId, grade}` with an optional
  grade. `NewStudent` gives the schema defaults of 0 credits and an empty list.
- A new credit record takes the schema default of 0 for `totalSpent`.
- A course's `content` is a list of `{type, url}` items.

Ids taken from a request body are looked up the way the database casts them:
`findById` and `findOne({ userId })` turn the request string into an object
id, so an id in upper-case hex finds the same document as its lower-case
spelling. `Canon` is that lower-case spelling, and it is what the model
stores in new enrollments and credit records. This covers the course id of
both enrollment paths and the `userId` of a completion. Caller ids and the
ids of new students are taken as already canonical (see "## Left out"). The enrollment duplicate checks, however,
compare the stored id's `toString()` with the request string exactly as sent
(`===`). The model keeps both halves.

The headline invariant (`CreditLedger.Inv`) holds from the empty state, where
every student starts with 0 credits and no record, over every sequence of
requests. It says:

- Four views of each student's balance agree: `student.credits`,
  `record.amount`, `totalPurchased − totalSpent`, and the signed sum of the log.
  Without a record, the last three read as 0.
- No two students share an email.

A second invariant (`CreditLedger.EnrollmentsDistinct`) says that no enrollment
list names a course twice. It holds only over requests whose course ids are
spelled canonically (in lower case). A re-spelled id of a course the student
already holds enrolls the student again, and on the paid path charges the
price again.

The handlers do not guard against everything. The model proves these gaps as
facts about the handlers as written:

- A replayed completion credits the balance again. The payment id is stored
  but never looked up.
- A negative credit amount passes validation, and nothing on the completion
  path keeps a balance at or above 0.
- With the course schema as written, no course has a credit price, so every
  course purchase is refused.
- Free registration enrolls a student in a priced course with no spend behind it.
- A re-spelled course id enrolls a student twice, and a paid purchase then
  charges twice.

Other facts about the code's answers:

- An already-enrolled course purchase answers 400.
- A failed payment-provider call answers 500.
- A course purchase saves the debited, enrolled student before it updates the
  credit record. If the second save fails, nothing brings the two back into
  agreement.

Some facts about the server code lie outside the handlers but matter for
reading the model:

- The credit routes read the caller from `req.user.id`. The student
  middleware sets `req.student`.
- `Credit.routes.js` imports a default export that `auth.middleware.js` does
  not provide.
- The `complete-purchase` route has no authentication.
- `PurchaseCourseWithCredits` and `GetCreditBalance` take the caller id as a
  parameter. `CompleteCreditPurchase` reads its `userId` from the request body.

## Model

| member | source | states |
|---|---|---|
| CreditController.PurchaseCredits | server/src/controllers/Credit.controller.js:7-69 | a missing or non-positive amount is refused with 400 and nothing else; a valid amount yields 201 carrying the provider's payment id and link when the provider call succeeds, 500 otherwise; the handler is given no state, so it reads and writes no student or record |
| CreditController.CompleteCreditPurchase | server/src/controllers/Credit.controller.js:72-141 | 400 exactly when paymentId, userId or creditAmount is falsy (0 refused, negatives accepted); 404 exactly when the canonical userId names no student; the record is found and created under that canonical id; every refusal leaves the state unchanged; on success credits, record amount and totalPurchased each rise by exactly creditAmount, totalSpent and the enrollments stay, exactly one purchase entry carrying paymentId is appended (a missing record is created with just that entry), no other document changes, and totalCredits is the new balance |
| CreditController.PurchaseCourseWithCredits | server/src/controllers/Credit.controller.js:144-231 | the checks run in order: course missing under the canonical id 404, no positive price 400, student missing 404, credits below price 400 with required/available, already enrolled under the id exactly as sent 400; success exactly when all pass; a refusal changes nothing; on success credits drop by exactly the price and stay non-negative, one {canonical courseId, grade unset} entry is appended, an existing record gets amount −price, totalSpent +price and one spend entry, no record means no ledger change, and remainingCredits is the new balance |
| CreditController.GetCreditBalance | server/src/controllers/Credit.controller.js:234-248 | always 200; balance is the student's credits or 0 for an unknown student; totalPurchased and totalSpent come from the record or are 0 without one; the handler returns no new state |
| StudentController.RegisterForCourse | server/src/controllers/Student.controller.js:88-119 | 400 exactly for a falsy courseId, 404 exactly when the canonical id names no course (checked before duplicates), 409 exactly when the student lists the id exactly as sent; refusals change nothing; success appends exactly one entry holding the canonical id and leaves credits, records and every other student untouched |
| StudentController.RegisterUser | server/src/controllers/Student.controller.js:8-54 | 400 exactly when name, email or password is falsy; 409 exactly when the email is already used; every refusal comes before anything is created; a created student is new, has the given email, 0 credits and no courses, and no other document changes |
| StudentController.LoginUser | server/src/controllers/Student.controller.js:56-77 | 400 exactly when email or password is falsy; 200 exactly when a student with that email has a password hash matching; an unknown email and a wrong password both give the same 401 response |
| Models.SchemaCourse | server/src/models/Course.model.js:3-38 | a course created from the schema has no creditPrice and no title (the fields the credit handler reads), isCompleted false, an empty content list and credits defaulting to 0 |
| CreditLedger.Step | server/src/middlewares/auth.middleware.js:8-28 | every response with status 400 or more leaves every document unchanged; starting a payment, reading the balance and logging in never change state; free registration by a caller who is not a student is refused with 401 and changes nothing |
| CreditLedger.CompletionKeepsInv | server/src/controllers/Credit.controller.js:93-124 | a completion keeps the four balance views equal and emails unique |
| CreditLedger.CoursePurchaseKeepsInv | server/src/controllers/Credit.controller.js:196-219 | a course purchase keeps the four balance views equal and emails unique |
| CreditLedger.CoursePurchaseKeepsDistinct | server/src/controllers/Credit.controller.js:184-219 | a course purchase whose course id is canonical never lists a course twice, since the exact-string duplicate check then sees the stored id |
| CreditLedger.RegistrationKeepsInv | server/src/controllers/Student.controller.js:106-116 | free registration keeps the balance views equal and emails unique |
| CreditLedger.RegistrationKeepsDistinct | server/src/controllers/Student.controller.js:106-116 | free registration with a canonical course id keeps every enrollment list duplicate-free |
| CreditLedger.SignUpKeepsInv | server/src/controllers/Student.controller.js:16-43 | sign-up keeps emails unique and adds a student whose balance views all read 0 |
| CreditLedger.StepKeepsInv | server/src/controllers/Credit.controller.js:93-219 | every request of either controller, on every path and under any spelling of its ids, preserves the ledger and email invariant |
| CreditLedger.StepKeepsDistinct | server/src/controllers/Student.controller.js:106-116 | every request whose course id, if any, is canonical keeps enrollment lists duplicate-free |
| CreditLedger.RunKeepsInv | server/src/controllers/Credit.controller.js:93-219 | any sequence of requests preserves the ledger and email invariant |
| CreditLedger.RunKeepsDistinct | server/src/controllers/Credit.controller.js:184-205 | any sequence of requests with canonical course ids keeps enrollment lists duplicate-free |
| CreditLedger.FromInitKeepsInv | server/src/models/Student.model.js:8-15 | from no students at all, where students start with 0 credits and no courses, every reachable state has credits = record amount = purchased − spent = signed log sum and unique emails |
| CreditLedger.FromInitKeepsDistinct | server/src/models/Student.model.js:8-15 | from no students at all, requests with canonical course ids reach only states with duplicate-free enrollment lists |
| CreditLedger.StepKeepsNonNegative | server/src/controllers/Credit.controller.js:175-197 | a request that credits no negative amount never takes a balance below 0 |
| CreditLedger.RunKeepsNonNegative | server/src/controllers/Credit.controller.js:75-197 | balances stay non-negative over any sequence in which every completed purchase credits a positive amount |
| CreditLedger.CoursePurchaseAlwaysLogsSpend | server/src/controllers/Credit.controller.js:207-219 | under the invariant a successful course purchase always finds a credit record, so the no-record branch is unreachable and the log gains exactly the spend of the price |
| CreditLedger.BalanceReportAgrees | server/src/controllers/Credit.controller.js:237-246 | under the invariant the reported balance equals totalPurchased − totalSpent |
| CreditLedger.LoginFindsTheOwner | server/src/controllers/Student.controller.js:62-71 | with unique emails, login succeeds exactly when the password matches the hash of the one student holding that email |
| CreditLedger.ReplayedCompletionCreditsTwice | server/src/controllers/Credit.controller.js:73-124 | two identical completions for an existing student both succeed, raise the balance by twice the amount and append two purchase entries with the same paymentId |
| CreditLedger.NegativeAmountAccepted | server/src/controllers/Credit.controller.js:75-93 | a negative creditAmount is accepted with 200 and takes a student at 0 credits below 0 |
| CreditLedger.SchemaCataloguePurchasesFail | server/src/controllers/Credit.controller.js:157-163 | when no course carries a creditPrice (as with the schema), every course purchase is refused with 400 or 404 and changes nothing |
| CreditLedger.PricedEnrollmentWithoutSpend | server/src/controllers/Student.controller.js:99-116 | for every state, free registration of an existing student in any course with a positive credit price that the student does not yet list answers 201, enrolls the student under the canonical id, and leaves the balance and the log unchanged |
| CreditLedger.ReSpelledIdEnrollsTwice | server/src/controllers/Student.controller.js:99-116 | a student enrolled under the canonical id who sends a different spelling of it is registered again with 201, and the list then names the course twice |
| CreditLedger.ReSpelledIdChargedTwice | server/src/controllers/Credit.controller.js:149-219 | a student holding a priced course under its canonical id who buys it under a different spelling succeeds, pays the price again, and the list names the course twice |
| CreditLedger.ReSpellingExample | server/src/controllers/Student.controller.js:99-116 | a concrete state with distinct enrollments in which the well-formed object id "507F1F77BCF86CD799439011", sent for the held course "507f1f77bcf86cd799439011", is registered again with 201 and breaks distinctness |
| CreditLedger.InsufficientCheckedBeforeEnrollment | server/src/controllers/Credit.controller.js:174-194 | an already-enrolled student short of credits gets the insufficient-credits answer, not the already-enrolled one |
| Models.NewStudent | server/src/models/Student.model.js:8-15 | a new student document has the given email and password hash, 0 credits and an empty course list |
| Models.Canon | server/src/controllers/Credit.controller.js:149 | the cast of a lookup keeps an id's length, maps each character to its lower-case form, and yields a spelling in which every character is already lower case |
| Models.CanonIgnoresCase | server/src/controllers/Student.controller.js:99 | two ids that differ only in letter case are cast to the same id, so `findById` finds the same document for either |
| Models.CanonIsCanonical | server/src/controllers/Credit.controller.js:200-203 | the cast spelling is a fixed point of the cast, so an id stored in that form is found again exactly as stored |
| CreditController.PurchaseEntry | server/src/controllers/Credit.controller.js:104-121 | the completion's log entry is a purchase of exactly the credited amount, carries the payment id, describes the credits bought and is stamped with the given time |
| CreditController.SpendEntry | server/src/controllers/Credit.controller.js:212-217 | the course purchase's log entry is a spend of exactly the price, carries no payment id, names the course title and is stamped with the given time |
| Chunking.ChunksFrom | chatbot/scripts/upload_subject_docs.py:18-22 | the loop ends exactly when the start leaves the text, which needs overlap < chunk_size; with a positive chunk_size every chunk is non-empty and at most chunk_size long |
| Chunking.ChunkText | chatbot/scripts/upload_subject_docs.py:14-23 | for an empty text or overlap < chunk_size: an empty text, and only an empty text, gives no chunks; when also 0 < chunk_size, chunks are non-empty and at most chunk_size long |
| Chunking.ChunkTextDefault | chatbot/scripts/upload_subject_docs.py:11-14 | with the defaults 500 and 50 every chunk has 1 to 500 characters, and only an empty text gives no chunks |
| Chunking.ChunkAt | chatbot/scripts/upload_subject_docs.py:18-22 | chunk i is exactly text[i·stride .. min(i·stride + chunk_size, len)] and starts inside the text |
| Chunking.ChunkCount | chatbot/scripts/upload_subject_docs.py:18-22 | the number of chunks n is ceil(len / stride): window n−1 starts inside the text and window n at or past its end |
| Chunking.LastChunkIsSuffix | chatbot/scripts/upload_subject_docs.py:19-21 | with 0 ≤ overlap < chunk_size the last chunk ends at the end of the text |
| Chunking.ChunkRoundTrip | chatbot/scripts/upload_subject_docs.py:14-23 | with 0 ≤ overlap < chunk_size, the first chunk followed by every later chunk minus its first overlap characters is the original text |
| Chunking.ShortTextTwoChunks | chatbot/scripts/upload_subject_docs.py:11-22 | under the defaults a 480-character text gives two chunks, the whole text and its last 30 characters, the second lying inside the first |

## Left out

- The payment provider call and the ether price of `purchaseCredits`: a network call and a floating-point conversion. The provider's answer is a parameter, and only validation and the absence of any ledger effect are modelled.
- Persistence atomicity and concurrency: each handler is one atomic step. The two separate saves of a completion and of a course purchase are not interleaved with other requests, and no crash between them is modelled.
- Caller ids, the ids of new students and the keys of the course catalogue are assumed canonical, because in the server they are the printed `id` of a stored document, which the database always spells in lower case. The model matches a caller id exactly, in `PurchaseCourseWithCredits`, `GetCreditBalance` and the free-registration branch of `CreditLedger.Step`. It also lets `RegisterUser` store a student under whatever `newId` is handed in. An upper-case spelling of either is therefore not resolved the way the cast in `Credit.controller.js:166`, `:208` and `:237-238` would resolve it. A student stored under a non-canonical id would be unreachable by a completion, which looks the student up through `Canon`. Likewise a course keyed by a non-canonical id would answer 404 to every request for it, since both enrollment paths look the course up through `Canon`.
- Storage failures (the `catch` that answers 500, malformed ObjectIds): an id that is not 24 hex digits is treated like any other string, an unknown id is simply absent from its map, and the store never fails. Only the case-insensitivity of the object-id cast is modelled, through `Canon`.
- JavaScript number semantics: amounts are unbounded integers, and fractional, NaN or string-typed amounts are not modelled.
- Authentication: the JWT, cookie and bcrypt layers are parameters. The caller id is given. The password comparison is a function parameter. The hash and the image upload outcome are values handed in. Only the "caller must be a student" answer of the student middleware is kept, in `CreditLedger.Step`, and only for free registration. The credit routes `/purchase`, `/purchase-course` and `/balance` also sit behind `verifyStudent` (`server/src/routes/Credit.routes.js:13-16`), but their handlers here take the caller id as given, since they read it from `req.user` and not from the student the middleware found.
- Timestamps come from a `now` parameter in place of the clock. The record-level `createdAt`/`updatedAt` timestamps are not modelled.
- Token issuing and cookies of `registerUser` and `loginUser`, `getProfile` and `getMyCourses`: these are reads and I/O with no ledger effect.
- Course creation, content upload, readiness scoring, the chatbot backend, `read_text_files`, `upload_subject_docs` and the client: I/O wrappers, random or LLM-driven code, and UI state.
- The unique index on course names: no modelled handler creates courses.
- Credit records are a map keyed by user id. This builds in the controllers' assumption that `findOne` sees at most one record per user. The schema does not declare `userId` unique.
- StudentController.LoginUser: the email lookup is stated as "some student with this email", which is exactly the database's single-document lookup only when emails are unique. `CreditLedger.LoginFindsTheOwner` proves the two agree under that invariant.
- StudentController.RegisterUser: a new id that collides with an existing one is refused with 500 and changes nothing. The database never mints such an id, so this branch stands for a failed insert and is not a behaviour of the code.

=== FILE: chunking.dfy ===
/**
 * The sliding-window text splitter used before documents are embedded:
 * windows of `chunkSize` characters whose starts are `chunkSize - overlap`
 * apart, the last one cut at the end of the text.
 */
module Chunking {

  const CHUNK_SIZE: int := 500
  const CHUNK_OVERLAP: int := 50

  function Min(a: int, b: int): int
  {
    if a <= b then a else b
  }

  /** A Python slice bound: negative counts back from the end; the result is clamped to [0, n]. */
  function PyIndex(i: int, n: nat): (k: nat)
    ensures k <= n
    ensures 0 <= i <= n ==> k == i
    ensures i >= n ==> k == n
  {
    if i < 0 then (if i + n < 0 then 0 else i + n) else if i > n then n else i
  }

  /** Python's `s[a:b]`: empty when the normalised bounds cross. */
  function PySlice(s: seq<char>, a: int, b: int): (r: seq<char>)
    ensures 0 <= a <= b <= |s| ==> r == s[a..b]
    ensures 0 <= b <= a ==> r == []
    ensures |s| <= a ==> r == []
  {
    var lo, hi := PyIndex(a, |s|), PyIndex(b, |s|);
    if lo < hi then s[lo..hi] else []
  }

  /**
   * The chunks whose windows start at `start`, `start + stride`, ... while the
   * start is inside the text. The loop only ends when the stride
   * `chunkSize - overlap` is positive, unless there is nothing left to split.
   */
  function ChunksFrom(text: seq<char>, chunkSize: int, overlap: int, start: nat): (r: seq<seq<char>>)
    requires start >= |text| || overlap < chunkSize
    ensures start >= |text| <==> r == []
    ensures 0 < chunkSize ==> forall i :: 0 <= i < |r| ==> 0 < |r[i]| <= chunkSize
    decreases |text| - start
  {
    if start >= |text| then []
    else
      [PySlice(text, start, Min(start + chunkSize, |text|))]
        + ChunksFrom(text, chunkSize, overlap, start + (chunkSize - overlap))
  }

  /** `chunk_text(text, chunk_size, overlap)`. */
  function ChunkText(text: seq<char>, chunkSize: int, overlap: int): (r: seq<seq<char>>)
    requires |text| == 0 || overlap < chunkSize
    ensures |text| == 0 <==> r == []
    ensures 0 < chunkSize ==> forall i :: 0 <= i < |r| ==> 0 < |r[i]| <= chunkSize
  {
    ChunksFrom(text, chunkSize, overlap, 0)
  }

  /** `chunk_text(text)` with the default window of 500 and overlap of 50, a stride of 450. */
  function ChunkTextDefault(text: seq<char>): (r: seq<seq<char>>)
    ensures |text| == 0 <==> r == []
    ensures forall i :: 0 <= i < |r| ==> 0 < |r[i]| <= 500
  {
    ChunkText(text, CHUNK_SIZE, CHUNK_OVERLAP)
  }

  /** The first chunk of a non-empty remainder is the window at `start`. */
  lemma FirstChunk(text: seq<char>, chunkSize: int, overlap: int, start: nat)
    requires 0 < chunkSize && overlap < chunkSize && start < |text|
    ensures var r := ChunksFrom(text, chunkSize, overlap, start);
      && r[0] == text[start..Min(start + chunkSize, |text|)]
      && r[1..] == ChunksFrom(text, chunkSize, overlap, start + (chunkSize - overlap))
  {
  }

  /** Where window i begins: `i` strides after `start`. */
  function WindowStart(start: nat, stride: nat, i: nat): nat
  {
    start + i * stride
  }

  /** Window i after `start + stride` is window i + 1 after `start`. */
  lemma WindowStep(start: nat, stride: nat, i: nat)
    ensures WindowStart(start + stride, stride, i) == WindowStart(start, stride, i + 1)
  {
    assert (i + 1) * stride == i * stride + stride;
  }

  /** Chunk i is the window starting i strides in, cut at the end of the text. */
  lemma {:induction false} ChunkAt(text: seq<char>, chunkSize: int, overlap: int, start: nat, i: nat)
    requires 0 < chunkSize && overlap < chunkSize
    requires i < |ChunksFrom(text, chunkSize, overlap, start)|
    ensures var lo := WindowStart(start, chunkSize - overlap, i);
      && lo < |text|
      && ChunksFrom(text, chunkSize, overlap, start)[i] == text[lo..Min(lo + chunkSize, |text|)]
    decreases i
  {
    var stride := chunkSize - overlap;
    FirstChunk(text, chunkSize, overlap, start);
    if i == 0 {
      assert WindowStart(start, stride, i) == start;
    } else {
      var r := ChunksFrom(text, chunkSize, overlap, start);
      assert r[i] == r[1..][i - 1];
      ChunkAt(text, chunkSize, overlap, start + stride, i - 1);
      WindowStep(start, stride, i - 1);
    }
  }

  /**
   * The number of chunks n is ceil((|text| - start) / stride): windows
   * 0 .. n-1 start inside the text and window n would start at or past its end.
   */
  lemma {:induction false} ChunkCount(text: seq<char>, chunkSize: int, overlap: int, start: nat)
    requires overlap < chunkSize
    ensures var n, stride := |ChunksFrom(text, chunkSize, overlap, start)|, chunkSize - overlap;
      && (start >= |text| ==> n == 0)
      && (start < |text| ==>
            n > 0 && WindowStart(start, stride, n - 1) < |text| <= WindowStart(start, stride, n))
    decreases |text| - start
  {
    var stride := chunkSize - overlap;
    if start < |text| {
      var n := |ChunksFrom(text, chunkSize, overlap, start)|;
      var m := |ChunksFrom(text, chunkSize, overlap, start + stride)|;
      assert n == m + 1;
      ChunkCount(text, chunkSize, overlap, start + stride);
      WindowStep(start, stride, m);
      if m == 0 {
        assert WindowStart(start, stride, 0) == start;
      } else {
        WindowStep(start, stride, m - 1);
      }
    }
  }

  /** With a non-negative overlap the last chunk reaches the end of the text. */
  lemma {:induction false} LastChunkIsSuffix(text: seq<char>, chunkSize: int, overlap: int, start: nat)
    requires 0 <= overlap < chunkSize && start < |text|
    ensures var r := ChunksFrom(text, chunkSize, overlap, start);
      var last := r[|r| - 1];
      |last| <= |text| && last == text[|text| - |last|..]
    decreases |text| - start
  {
    var stride := chunkSize - overlap;
    FirstChunk(text, chunkSize, overlap, start);
    if start + stride < |text| {
      var r := ChunksFrom(text, chunkSize, overlap, start);
      assert r[|r| - 1] == r[1..][|r| - 2];
      LastChunkIsSuffix(text, chunkSize, overlap, start + stride);
    }
  }

  /** The rest of each later chunk once its first `overlap` characters are dropped (`chunk[overlap:]`). */
  function Tails(chunks: seq<seq<char>>, overlap: int): seq<char>
  {
    if chunks == [] then [] else PySlice(chunks[0], overlap, |chunks[0]|) + Tails(chunks[1..], overlap)
  }

  /** The first chunk followed by the tails of the later ones. */
  function Rejoin(chunks: seq<seq<char>>, overlap: int): seq<char>
  {
    if chunks == [] then [] else chunks[0] + Tails(chunks[1..], overlap)
  }

  /** Dropping `k` characters of the window `text[a..b]` and appending the rest of the text. */
  lemma DropThenRest(text: seq<char>, a: nat, b: nat, k: nat)
    requires a <= b <= |text|
    requires k >= b - a ==> b == |text|
    ensures PySlice(text[a..b], k, b - a) + text[b..] == text[Min(a + k, |text|)..]
  {
    var c := text[a..b];
    if k < |c| {
      assert c[k..] == text[a + k..b];
      assert text[a + k..b] + text[b..] == text[a + k..];
    }
  }

  /** The tails of the chunks from `start` on are the text after the first `overlap` characters past `start`. */
  lemma {:induction false} TailsFrom(text: seq<char>, chunkSize: int, overlap: int, start: nat)
    requires 0 <= overlap < chunkSize
    ensures Tails(ChunksFrom(text, chunkSize, overlap, start), overlap) == text[Min(start + overlap, |text|)..]
    decreases |text| - start
  {
    if start < |text| {
      var stride := chunkSize - overlap;
      var end := Min(start + chunkSize, |text|);
      var r := ChunksFrom(text, chunkSize, overlap, start);
      FirstChunk(text, chunkSize, overlap, start);
      var c := r[0];
      TailsFrom(text, chunkSize, overlap, start + stride);
      assert Tails(r[1..], overlap) == text[end..];
      assert Tails(r, overlap) == PySlice(c, overlap, |c|) + text[end..];
      DropThenRest(text, start, end, overlap);
    }
  }

  /** Dropping each later chunk's overlap and concatenating gives back the text. */
  lemma ChunkRoundTrip(text: seq<char>, chunkSize: int, overlap: int)
    requires 0 <= overlap < chunkSize
    ensures Rejoin(ChunkText(text, chunkSize, overlap), overlap) == text
  {
    if |text| > 0 {
      var r := ChunkText(text, chunkSize, overlap);
      var end := Min(chunkSize, |text|);
      FirstChunk(text, chunkSize, overlap, 0);
      TailsFrom(text, chunkSize, overlap, chunkSize - overlap);
      assert Rejoin(r, overlap) == text[0..end] + text[end..];
      assert text[0..end] + text[end..] == text;
    }
  }

  /** A 480-character text gives two chunks under the defaults, the second lying inside the first. */
  lemma ShortTextTwoChunks(text: seq<char>)
    requires |text| == 480
    ensures var r := ChunkTextDefault(text);
      |r| == 2 && r[0] == text && r[1] == text[450..] && r[1] == r[0][450..]
  {
    var r := ChunkTextDefault(text);
    ChunkCount(text, 500, 50, 0);
    assert WindowStart(0, 450, |r| - 1) < 480 <= WindowStart(0, 450, |r|);
    assert |r| == 2;
    ChunkAt(text, 500, 50, 0, 0);
    ChunkAt(text, 500, 50, 0, 1);
  }
}

=== FILE: credit_controller.dfy ===
/**
 * The four credit handlers, each a pure transition from the state before a
 * request to the state after it together with the HTTP response. A handler
 * is one atomic step: the two separate saves of the server code are not
 * interleaved with anything.
 */
module CreditController {
  import opened Wrappers
  import opened Models
  import opened Http

  /** The external payment provider's answer: the created payment, or None when the call failed. */
  datatype Payment = Payment(id: string, link: string)

  /**
   * Starting a credit purchase. Only the amount is validated; the provider
   * call and its ether price are outside the model. The handler receives no
   * state, so no path through it reads or writes a student or credit record.
   */
  function PurchaseCredits(amount: Option<int>, provider: Option<Payment>): (r: Response)
    ensures r.status == 400 <==> amount.None? || amount.value <= 0
    ensures r.status == 400 ==> r.body == Error(InvalidCreditAmount)
    ensures r.status == 201 <==> amount.Some? && amount.value > 0 && provider.Some?
    ensures r.status == 201 ==>
      r.body == PaymentCreated(provider.value.id, provider.value.link, amount.value)
    ensures r.status in {201, 400, 500}
  {
    if amount.None? || amount.value <= 0 then Response(400, Error(InvalidCreditAmount))
    else match provider
      case None => Response(500, Error(PaymentCreationFailed))
      case Some(p) => Response(201, PaymentCreated(p.id, p.link, amount.value))
  }

  /** The log entry a completed payment appends. */
  function PurchaseEntry(paymentId: string, creditAmount: int, now: int): (t: Transaction)
    ensures t.kind == Purchase && t.amount == creditAmount && t.paymentId == Some(paymentId)
    ensures t.description == Some(CreditsPurchased(creditAmount)) && t.timestamp == now
    ensures Signed(t) == creditAmount
  {
    Transaction(Purchase, creditAmount, Some(CreditsPurchased(creditAmount)), Some(paymentId), None, now)
  }

  /** The log entry a course purchase appends. */
  function SpendEntry(price: int, title: Option<string>, now: int): (t: Transaction)
    ensures t.kind == Spend && t.amount == price && t.paymentId == None
    ensures t.description == Some(CoursePurchased(title)) && t.timestamp == now
    ensures Signed(t) == -price
  {
    Transaction(Spend, price, Some(CoursePurchased(title)), None, None, now)
  }

  /** The completion request passes validation: every field present and truthy, so 0 fails but negatives pass. */
  predicate CompletionFieldsValid(paymentId: Option<string>, userId: Option<StudentId>, creditAmount: Option<int>)
  {
    Truthy(paymentId) && Truthy(userId) && creditAmount.Some? && creditAmount.value != 0
  }

  /**
   * Completing a credit purchase (the payment webhook). The payment id is
   * recorded but never looked up, so a replayed completion credits again.
   * The user id is looked up, and stored in the new record, in its canonical
   * spelling.
   */
  function CompleteCreditPurchase(s: State, paymentId: Option<string>, userId: Option<StudentId>,
                                  creditAmount: Option<int>, now: int): (r: (State, Response))
    ensures r.1.status == 400 <==> !CompletionFieldsValid(paymentId, userId, creditAmount)
    ensures r.1.status == 400 ==> r.1.body == Error(MissingPurchaseFields)
    ensures r.1.status == 404 <==>
      CompletionFieldsValid(paymentId, userId, creditAmount) && Canon(userId.value) !in s.students
    ensures r.1.status in {200, 400, 404}
    ensures r.1.status != 200 ==> r.0 == s
    ensures r.1.status == 200 ==>
      var uid, amt := Canon(userId.value), creditAmount.value;
      && uid in s.students && uid in r.0.students
      && SameProfile(s.students[uid], r.0.students[uid])
      && Balance(r.0, uid) == Balance(s, uid) + amt
      && Courses(r.0, uid) == Courses(s, uid)
      && uid in r.0.records
      && r.0.records[uid].userId == (if uid in s.records then s.records[uid].userId else uid)
      && RecordAmount(r.0, uid) == RecordAmount(s, uid) + amt
      && Purchased(r.0, uid) == Purchased(s, uid) + amt
      && Spent(r.0, uid) == Spent(s, uid)
      && Ledger(r.0, uid) == Ledger(s, uid) + [PurchaseEntry(paymentId.value, amt, now)]
      && OthersUnchanged(s, r.0, uid)
      && r.1.body == CreditsAdded(amt, Balance(r.0, uid))
  {
    if !(Truthy(paymentId) && Truthy(userId) && creditAmount.Some? && creditAmount.value != 0) then
      (s, Response(400, Error(MissingPurchaseFields)))
    else
      var uid, amt := Canon(userId.value), creditAmount.value;
      if uid !in s.students then
        (s, Response(404, Error(StudentNotFound)))
      else
        var st := s.students[uid];
        var st' := st.(credits := st.credits + amt);
        var entry := PurchaseEntry(paymentId.value, amt, now);
        var rec' :=
          if uid !in s.records then
            // a new record: `totalSpent` takes the schema default 0
            CreditRecord(uid, amt, amt, 0, [entry])
          else
            var rec := s.records[uid];
            rec.(amount := rec.amount + amt,
                 totalPurchased := rec.totalPurchased + amt,
                 transactions := rec.transactions + [entry]);
        var s' := s.(students := s.students[uid := st'], records := s.records[uid := rec']);
        (s', Response(200, CreditsAdded(amt, st'.credits)))
  }

  /** The course has a usable credit price: present and positive. */
  predicate Priced(c: Course)
  {
    c.creditPrice.Some? && c.creditPrice.value > 0
  }

  /** The course a request names, found through the canonical spelling of its id. */
  predicate Found(s: State, courseId: Option<CourseId>)
  {
    courseId.Some? && Canon(courseId.value) in s.catalogue
  }

  /**
   * Buying a course with credits. The checks run in this order: course
   * exists, it has a positive credit price, the student exists, the balance
   * covers the price, the student is not already enrolled. The course is
   * found through the canonical spelling of the requested id, but the
   * enrollment check compares the stored ids with the id exactly as sent.
   * The new entry stores the canonical id. A student with no credit record
   * is enrolled and debited without any ledger entry.
   */
  function PurchaseCourseWithCredits(s: State, uid: StudentId, courseId: Option<CourseId>, now: int)
    : (r: (State, Response))
    ensures !Found(s, courseId) ==> r.1 == Response(404, Error(CourseNotFound))
    ensures Found(s, courseId) && !Priced(s.catalogue[Canon(courseId.value)]) ==>
      r.1 == Response(400, Error(NotForCreditPurchase))
    ensures Found(s, courseId) && Priced(s.catalogue[Canon(courseId.value)]) && uid !in s.students ==>
      r.1 == Response(404, Error(StudentNotFound))
    ensures Found(s, courseId) && Priced(s.catalogue[Canon(courseId.value)]) && uid in s.students
            && s.students[uid].credits < s.catalogue[Canon(courseId.value)].creditPrice.value ==>
      r.1 == Response(400, InsufficientCredits(s.catalogue[Canon(courseId.value)].creditPrice.value,
                                               s.students[uid].credits))
    ensures Found(s, courseId) && Priced(s.catalogue[Canon(courseId.value)]) && uid in s.students
            && s.students[uid].credits >= s.catalogue[Canon(courseId.value)].creditPrice.value
            && Enrolled(s.students[uid], courseId.value) ==>
      r.1 == Response(400, Error(AlreadyEnrolled))
    ensures r.1.status == 200 <==>
      && Found(s, courseId) && Priced(s.catalogue[Canon(courseId.value)])
      && uid in s.students && s.students[uid].credits >= s.catalogue[Canon(courseId.value)].creditPrice.value
      && !Enrolled(s.students[uid], courseId.value)
    ensures r.1.status != 200 ==> r.0 == s
    ensures r.1.status == 200 ==>
      var cid := Canon(courseId.value);
      var price := s.catalogue[cid].creditPrice.value;
      && uid in r.0.students && SameProfile(s.students[uid], r.0.students[uid])
      && Balance(r.0, uid) == Balance(s, uid) - price
      && Balance(r.0, uid) >= 0
      && Courses(r.0, uid) == Courses(s, uid) + [Enrollment(cid, None)]
      && (uid in s.records ==>
            && uid in r.0.records && r.0.records[uid].userId == s.records[uid].userId
            && RecordAmount(r.0, uid) == RecordAmount(s, uid) - price
            && Purchased(r.0, uid) == Purchased(s, uid)
            && Spent(r.0, uid) == Spent(s, uid) + price
            && Ledger(r.0, uid) == Ledger(s, uid) + [SpendEntry(price, s.catalogue[cid].title, now)])
      && (uid !in s.records ==> r.0.records == s.records)
      && OthersUnchanged(s, r.0, uid)
      && r.1.body == CourseBought(courseId.value, s.catalogue[cid].title, price, Balance(r.0, uid))
  {
    if courseId.None? || Canon(courseId.value) !in s.catalogue then
      (s, Response(404, Error(CourseNotFound)))
    else
      var cid := Canon(courseId.value);
      var course := s.catalogue[cid];
      if course.creditPrice.None? || course.creditPrice.value <= 0 then
        (s, Response(400, Error(NotForCreditPurchase)))
      else if uid !in s.students then
        (s, Response(404, Error(StudentNotFound)))
      else
        var price := course.creditPrice.value;
        var st := s.students[uid];
        if st.credits < price then
          (s, Response(400, InsufficientCredits(price, st.credits)))
        else if exists i :: 0 <= i < |st.courses| && st.courses[i].courseId == courseId.value then
          (s, Response(400, Error(AlreadyEnrolled)))
        else
          var st' := st.(credits := st.credits - price, courses := st.courses + [Enrollment(cid, None)]);
          var records' :=
            if uid in s.records then
              var rec := s.records[uid];
              s.records[uid := rec.(amount := rec.amount - price,
                                    totalSpent := rec.totalSpent + price,
                                    transactions := rec.transactions + [SpendEntry(price, course.title, now)])]
            else s.records;
          var s' := s.(students := s.students[uid := st'], records := records');
          (s', Response(200, CourseBought(courseId.value, course.title, price, st'.credits)))
  }

  /** Reading the caller's balance and ledger totals; unknown students and missing records read as 0. */
  function GetCreditBalance(s: State, uid: StudentId): (r: Response)
    ensures r.status == 200
    ensures r.body.BalanceReport?
    ensures uid !in s.students ==> r.body.balance == 0
    ensures uid in s.students ==> r.body.balance == s.students[uid].credits
    ensures uid !in s.records ==> r.body.totalPurchased == 0 && r.body.totalSpent == 0
    ensures uid in s.records ==>
      r.body.totalPurchased == s.records[uid].totalPurchased && r.body.totalSpent == s.records[uid].totalSpent
  {
    Response(200, BalanceReport(
      if uid in s.students then s.students[uid].credits else 0,
      if uid in s.records then s.records[uid].totalPurchased else 0,
      if uid in s.records then s.records[uid].totalSpent else 0))
  }
}

=== FILE: credit_ledger.dfy ===
/**
 * The handlers of both controllers as one state machine over the shared
 * documents, the invariants it keeps, and the facts about the handlers
 * that are gaps rather than guarantees.
 */
module CreditLedger {
  import opened Wrappers
  import opened Models
  import opened Http
  import opened CreditController
  import opened StudentController

  /** One HTTP request with the outcomes of its external calls already decided. */
  datatype Request =
    | BuyCredits(amount: Option<int>, provider: Option<Payment>)
    | CompletePurchase(paymentId: Option<string>, userId: Option<StudentId>, creditAmount: Option<int>, now: int)
    | BuyCourse(caller: StudentId, courseId: Option<CourseId>, now: int)
    | QueryBalance(caller: StudentId)
    | AddCourse(caller: StudentId, courseId: Option<CourseId>)
    | SignUp(name: Option<string>, email: Option<string>, password: Option<string>,
             hashed: string, upload: Option<string>, newId: StudentId)
    | LogIn(email: Option<string>, password: Option<string>, matches: (string, string) -> bool)

  /**
   * One atomic step. Free registration sits behind the student check of the
   * authentication layer, which answers 401 for a caller that is not a student.
   */
  function Step(s: State, req: Request): (r: (State, Response))
    ensures IsError(r.1) ==> r.0 == s
    ensures req.BuyCredits? || req.QueryBalance? || req.LogIn? ==> r.0 == s
    ensures req.AddCourse? && req.caller !in s.students ==> r.1 == Response(401, Error(Unauthorized))
  {
    match req
    case BuyCredits(amount, provider) => (s, PurchaseCredits(amount, provider))
    case CompletePurchase(pid, uid, amt, now) => CompleteCreditPurchase(s, pid, uid, amt, now)
    case BuyCourse(uid, cid, now) => PurchaseCourseWithCredits(s, uid, cid, now)
    case QueryBalance(uid) => (s, GetCreditBalance(s, uid))
    case AddCourse(uid, cid) =>
      if uid in s.students then RegisterForCourse(s, uid, cid) else (s, Response(401, Error(Unauthorized)))
    case SignUp(name, email, password, hashed, upload, newId) =>
      RegisterUser(s, name, email, password, hashed, upload, newId)
    case LogIn(email, password, matches) => (s, LoginUser(s, email, password, matches))
  }

  /** The state after handling `reqs` in order. */
  function Run(s: State, reqs: seq<Request>): State
    decreases |reqs|
  {
    if reqs == [] then s else Run(Step(s, reqs[0]).0, reqs[1..])
  }

  /** No students, no credit records, and some catalogue. */
  function Init(catalogue: map<CourseId, Course>): State
  {
    State(map[], map[], catalogue)
  }

  /**
   * The four views of a student's balance agree: the student's credits, the
   * record's cached amount, purchases minus spends, and the signed sum of the
   * log. Without a record the last three read as 0.
   */
  ghost predicate AccountBalanced(s: State, id: StudentId)
  {
    && Balance(s, id) == RecordAmount(s, id)
    && RecordAmount(s, id) == Purchased(s, id) - Spent(s, id)
    && Purchased(s, id) - Spent(s, id) == SignedSum(Ledger(s, id))
  }

  /** Every record belongs to an existing student under its own id, and every student's balance is justified. */
  ghost predicate LedgerAgrees(s: State)
  {
    && (forall id | id in s.records :: id in s.students && s.records[id].userId == id)
    && (forall id | id in s.students :: AccountBalanced(s, id))
  }

  /**
   * No student is enrolled twice in one course. Kept only while requests
   * spell course ids canonically: see `CanonicalIds`.
   */
  ghost predicate EnrollmentsDistinct(s: State)
  {
    forall id | id in s.students :: DistinctCourses(s.students[id].courses)
  }

  /** No two students share an email. */
  ghost predicate EmailsUnique(s: State)
  {
    forall a, b | a in s.students && b in s.students && a != b :: s.students[a].email != s.students[b].email
  }

  /** What every request, however its ids are spelled, keeps. */
  ghost predicate Inv(s: State)
  {
    LedgerAgrees(s) && EmailsUnique(s)
  }

  /** The course id the request carries, if any, is already in its canonical spelling. */
  predicate CanonicalIds(req: Request)
  {
    (req.BuyCourse? || req.AddCourse?) && req.courseId.Some? ==> IsCanonical(req.courseId.value)
  }

  /** No student's balance is negative. */
  ghost predicate NonNegative(s: State)
  {
    forall id | id in s.students :: s.students[id].credits >= 0
  }

  /** The request does not complete a purchase with a negative credit amount. */
  predicate CreditsPositive(req: Request)
  {
    req.CompletePurchase? && req.creditAmount.Some? ==> req.creditAmount.value > 0
  }

  lemma InitSatisfiesInv(catalogue: map<CourseId, Course>)
    ensures Inv(Init(catalogue)) && EnrollmentsDistinct(Init(catalogue)) && NonNegative(Init(catalogue))
  {
  }

  /** Changing one existing student's account, and nothing else, keeps the ledger agreeing if that account stays balanced. */
  lemma LedgerAgreesAfterUpdate(s: State, s': State, id: StudentId)
    requires LedgerAgrees(s) && OthersUnchanged(s, s', id) && id in s.students
    requires AccountBalanced(s', id)
    requires id in s'.records ==> s'.records[id].userId == id
    ensures LedgerAgrees(s')
  {
    forall k | k in s'.students
      ensures AccountBalanced(s', k)
    {
      if k != id {
        assert AccountBalanced(s, k);
      }
    }
  }

  /** Changing one existing student, and nothing else, keeps enrollments distinct if that student's list stays so. */
  lemma EnrollmentsDistinctAfterUpdate(s: State, s': State, id: StudentId)
    requires EnrollmentsDistinct(s) && OthersUnchanged(s, s', id) && id in s.students
    requires DistinctCourses(s'.students[id].courses)
    ensures EnrollmentsDistinct(s')
  {
  }

  /** Changing one existing student but not its profile keeps emails unique. */
  lemma EmailsUniqueAfterUpdate(s: State, s': State, id: StudentId)
    requires EmailsUnique(s) && OthersUnchanged(s, s', id) && id in s.students
    requires SameProfile(s.students[id], s'.students[id])
    ensures EmailsUnique(s')
  {
  }

  lemma CompletionKeepsInv(s: State, pid: Option<string>, uid: Option<StudentId>, amt: Option<int>, now: int)
    requires Inv(s)
    ensures Inv(CompleteCreditPurchase(s, pid, uid, amt, now).0)
  {
    var r := CompleteCreditPurchase(s, pid, uid, amt, now);
    if r.1.status == 200 {
      var id := Canon(uid.value);
      assert AccountBalanced(s, id);
      SignedSumAppend(Ledger(s, id), PurchaseEntry(pid.value, amt.value, now));
      LedgerAgreesAfterUpdate(s, r.0, id);
      EmailsUniqueAfterUpdate(s, r.0, id);
    }
  }

  lemma CoursePurchaseKeepsInv(s: State, uid: StudentId, cid: Option<CourseId>, now: int)
    requires Inv(s)
    ensures Inv(PurchaseCourseWithCredits(s, uid, cid, now).0)
  {
    var r := PurchaseCourseWithCredits(s, uid, cid, now);
    if r.1.status == 200 {
      var c := Canon(cid.value);
      var price := s.catalogue[c].creditPrice.value;
      assert AccountBalanced(s, uid);
      SignedSumAppend(Ledger(s, uid), SpendEntry(price, s.catalogue[c].title, now));
      LedgerAgreesAfterUpdate(s, r.0, uid);
      EmailsUniqueAfterUpdate(s, r.0, uid);
    }
  }

  /** A course purchase naming its course canonically never enrolls a student twice. */
  lemma CoursePurchaseKeepsDistinct(s: State, uid: StudentId, cid: Option<CourseId>, now: int)
    requires EnrollmentsDistinct(s)
    requires cid.Some? ==> IsCanonical(cid.value)
    ensures EnrollmentsDistinct(PurchaseCourseWithCredits(s, uid, cid, now).0)
  {
    var r := PurchaseCourseWithCredits(s, uid, cid, now);
    if r.1.status == 200 {
      AppendKeepsDistinct(s.students[uid].courses, Enrollment(cid.value, None));
      EnrollmentsDistinctAfterUpdate(s, r.0, uid);
    }
  }

  lemma RegistrationKeepsInv(s: State, uid: StudentId, cid: Option<CourseId>)
    requires Inv(s) && uid in s.students
    ensures Inv(RegisterForCourse(s, uid, cid).0)
  {
    var r := RegisterForCourse(s, uid, cid);
    if r.1.status == 201 {
      assert AccountBalanced(s, uid);
      LedgerAgreesAfterUpdate(s, r.0, uid);
      EmailsUniqueAfterUpdate(s, r.0, uid);
    }
  }

  /** A free registration naming its course canonically never enrolls a student twice. */
  lemma RegistrationKeepsDistinct(s: State, uid: StudentId, cid: Option<CourseId>)
    requires EnrollmentsDistinct(s) && uid in s.students
    requires cid.Some? ==> IsCanonical(cid.value)
    ensures EnrollmentsDistinct(RegisterForCourse(s, uid, cid).0)
  {
    var r := RegisterForCourse(s, uid, cid);
    if r.1.status == 201 {
      AppendKeepsDistinct(s.students[uid].courses, Enrollment(cid.value, None));
      EnrollmentsDistinctAfterUpdate(s, r.0, uid);
    }
  }

  lemma SignUpKeepsInv(s: State, name: Option<string>, email: Option<string>, password: Option<string>,
                       hashed: string, upload: Option<string>, newId: StudentId)
    requires Inv(s)
    ensures Inv(RegisterUser(s, name, email, password, hashed, upload, newId).0)
  {
    var r := RegisterUser(s, name, email, password, hashed, upload, newId);
    if r.1.status == 201 {
      assert newId !in s.records;
      forall k | k in r.0.students
        ensures AccountBalanced(r.0, k)
      {
        if k != newId {
          assert AccountBalanced(s, k);
        }
      }
    }
  }

  /** Every handler, on every path, keeps the ledger and email invariants. */
  lemma StepKeepsInv(s: State, req: Request)
    requires Inv(s)
    ensures Inv(Step(s, req).0)
  {
    match req
    case BuyCredits(_, _) =>
    case CompletePurchase(pid, uid, amt, now) => CompletionKeepsInv(s, pid, uid, amt, now);
    case BuyCourse(uid, cid, now) => CoursePurchaseKeepsInv(s, uid, cid, now);
    case QueryBalance(_) =>
    case AddCourse(uid, cid) =>
      if uid in s.students {
        RegistrationKeepsInv(s, uid, cid);
      }
    case SignUp(name, email, password, hashed, upload, newId) =>
      SignUpKeepsInv(s, name, email, password, hashed, upload, newId);
    case LogIn(_, _, _) =>
  }

  /** Every handler keeps enrollment lists duplicate-free when the course id it is sent is canonical. */
  lemma StepKeepsDistinct(s: State, req: Request)
    requires EnrollmentsDistinct(s) && CanonicalIds(req)
    ensures EnrollmentsDistinct(Step(s, req).0)
  {
    match req
    case BuyCredits(_, _) =>
    case CompletePurchase(pid, uid, amt, now) =>
      var r := CompleteCreditPurchase(s, pid, uid, amt, now);
      if r.1.status == 200 {
        EnrollmentsDistinctAfterUpdate(s, r.0, Canon(uid.value));
      }
    case BuyCourse(uid, cid, now) => CoursePurchaseKeepsDistinct(s, uid, cid, now);
    case QueryBalance(_) =>
    case AddCourse(uid, cid) =>
      if uid in s.students {
        RegistrationKeepsDistinct(s, uid, cid);
      }
    case SignUp(name, email, password, hashed, upload, newId) =>
    case LogIn(_, _, _) =>
  }

  /**
   * From no students at all, where every student starts with 0 credits and no
   * record, every sequence of requests keeps the four balance views equal and
   * every email unique.
   */
  lemma {:induction false} RunKeepsInv(s: State, reqs: seq<Request>)
    requires Inv(s)
    ensures Inv(Run(s, reqs))
    decreases |reqs|
  {
    if reqs != [] {
      StepKeepsInv(s, reqs[0]);
      RunKeepsInv(Step(s, reqs[0]).0, reqs[1..]);
    }
  }

  lemma FromInitKeepsInv(catalogue: map<CourseId, Course>, reqs: seq<Request>)
    ensures Inv(Run(Init(catalogue), reqs))
  {
    InitSatisfiesInv(catalogue);
    RunKeepsInv(Init(catalogue), reqs);
  }

  /** Requests that all spell their course ids canonically never enroll a student twice. */
  lemma {:induction false} RunKeepsDistinct(s: State, reqs: seq<Request>)
    requires EnrollmentsDistinct(s)
    requires forall i :: 0 <= i < |reqs| ==> CanonicalIds(reqs[i])
    ensures EnrollmentsDistinct(Run(s, reqs))
    decreases |reqs|
  {
    if reqs != [] {
      StepKeepsDistinct(s, reqs[0]);
      RunKeepsDistinct(Step(s, reqs[0]).0, reqs[1..]);
    }
  }

  lemma FromInitKeepsDistinct(catalogue: map<CourseId, Course>, reqs: seq<Request>)
    requires forall i :: 0 <= i < |reqs| ==> CanonicalIds(reqs[i])
    ensures EnrollmentsDistinct(Run(Init(catalogue), reqs))
  {
    InitSatisfiesInv(catalogue);
    RunKeepsDistinct(Init(catalogue), reqs);
  }

  /** A step whose credited amount, if any, is positive never drives a balance below 0. */
  lemma StepKeepsNonNegative(s: State, req: Request)
    requires NonNegative(s) && CreditsPositive(req)
    ensures NonNegative(Step(s, req).0)
  {
  }

  lemma {:induction false} RunKeepsNonNegative(s: State, reqs: seq<Request>)
    requires NonNegative(s)
    requires forall i :: 0 <= i < |reqs| ==> CreditsPositive(reqs[i])
    ensures NonNegative(Run(s, reqs))
    decreases |reqs|
  {
    if reqs != [] {
      StepKeepsNonNegative(s, reqs[0]);
      RunKeepsNonNegative(Step(s, reqs[0]).0, reqs[1..]);
    }
  }

  /**
   * Under the invariant a successful course purchase always finds a credit
   * record (the branch without one cannot be reached) and so always logs a
   * spend of the price.
   */
  lemma CoursePurchaseAlwaysLogsSpend(s: State, uid: StudentId, cid: Option<CourseId>, now: int)
    requires Inv(s)
    requires PurchaseCourseWithCredits(s, uid, cid, now).1.status == 200
    ensures uid in s.records
    ensures var c := Canon(cid.value);
            var price := s.catalogue[c].creditPrice.value;
      Ledger(PurchaseCourseWithCredits(s, uid, cid, now).0, uid)
        == Ledger(s, uid) + [SpendEntry(price, s.catalogue[c].title, now)]
  {
    assert AccountBalanced(s, uid);
  }

  /** The balance report is self-consistent: under the invariant, balance = purchased − spent. */
  lemma BalanceReportAgrees(s: State, uid: StudentId)
    requires Inv(s)
    ensures var b := GetCreditBalance(s, uid).body;
      b.balance == b.totalPurchased - b.totalSpent
  {
    if uid in s.students {
      assert AccountBalanced(s, uid);
    }
  }

  /** Login looks a student up by email; with unique emails this is the one student holding it. */
  lemma LoginFindsTheOwner(s: State, id: StudentId, password: string, matches: (string, string) -> bool)
    requires EmailsUnique(s) && id in s.students
    requires s.students[id].email != "" && password != ""
    ensures LoginUser(s, Some(s.students[id].email), Some(password), matches).status == 200
        <==> matches(password, s.students[id].password)
  {
  }

  // ----- Gaps of the handlers, stated as facts -----

  /** A replayed completion is not recognised: it credits and logs a second time. */
  lemma ReplayedCompletionCreditsTwice(s: State, pid: string, uid: StudentId, amt: int, now: int, later: int)
    requires pid != "" && uid != "" && amt != 0 && Canon(uid) in s.students
    ensures var id := Canon(uid);
            var s1 := CompleteCreditPurchase(s, Some(pid), Some(uid), Some(amt), now);
            var s2 := CompleteCreditPurchase(s1.0, Some(pid), Some(uid), Some(amt), later);
      && s1.1.status == 200 && s2.1.status == 200
      && Balance(s2.0, id) == Balance(s, id) + 2 * amt
      && Ledger(s2.0, id) == Ledger(s, id) + [PurchaseEntry(pid, amt, now), PurchaseEntry(pid, amt, later)]
  {
    var id := Canon(uid);
    var s1 := CompleteCreditPurchase(s, Some(pid), Some(uid), Some(amt), now);
    var s2 := CompleteCreditPurchase(s1.0, Some(pid), Some(uid), Some(amt), later);
    assert Ledger(s2.0, id) == Ledger(s, id) + [PurchaseEntry(pid, amt, now)] + [PurchaseEntry(pid, amt, later)];
  }

  /** A negative credit amount passes validation and takes a fresh student below 0. */
  lemma NegativeAmountAccepted(s: State, pid: string, uid: StudentId, amt: int, now: int)
    requires pid != "" && uid != "" && amt < 0
    requires Canon(uid) in s.students && s.students[Canon(uid)].credits == 0
    ensures var r := CompleteCreditPurchase(s, Some(pid), Some(uid), Some(amt), now);
      r.1.status == 200 && Balance(r.0, Canon(uid)) < 0 && !NonNegative(r.0)
  {
  }

  /**
   * With every course stored as the schema defines it, no credit price is
   * ever present, so every course purchase is refused and changes nothing.
   */
  lemma SchemaCataloguePurchasesFail(s: State, uid: StudentId, cid: Option<CourseId>, now: int)
    requires forall c | c in s.catalogue :: s.catalogue[c].creditPrice == None
    ensures var r := PurchaseCourseWithCredits(s, uid, cid, now);
      r.1.status in {400, 404} && r.0 == s
  {
  }

  /**
   * Free registration enrolls a student in a course that has a credit price
   * without charging anything: the balance and the ledger stay as they were.
   */
  lemma PricedEnrollmentWithoutSpend(s: State, uid: StudentId, cid: CourseId)
    requires uid in s.students && cid != ""
    requires Canon(cid) in s.catalogue && Priced(s.catalogue[Canon(cid)])
    requires !Enrolled(s.students[uid], cid)
    ensures var r := Step(s, AddCourse(uid, Some(cid)));
      && r.1.status == 201
      && Enrolled(r.0.students[uid], Canon(cid))
      && Balance(r.0, uid) == Balance(s, uid)
      && Ledger(r.0, uid) == Ledger(s, uid)
  {
    var r := Step(s, AddCourse(uid, Some(cid)));
    var n := |s.students[uid].courses|;
    assert r.0.students[uid].courses[n].courseId == Canon(cid);
  }

  /**
   * A student already enrolled under the canonical id is enrolled again when
   * the request spells the id differently (upper-case hex): the course is
   * found, the duplicate check compares the spellings and misses it.
   */
  lemma ReSpelledIdEnrollsTwice(s: State, uid: StudentId, cid: CourseId)
    requires uid in s.students && cid != "" && Canon(cid) in s.catalogue
    requires Enrolled(s.students[uid], Canon(cid)) && !Enrolled(s.students[uid], cid)
    ensures var r := Step(s, AddCourse(uid, Some(cid)));
      r.1.status == 201 && !DistinctCourses(r.0.students[uid].courses)
  {
    var r := Step(s, AddCourse(uid, Some(cid)));
    var cs := s.students[uid].courses;
    var i :| 0 <= i < |cs| && cs[i].courseId == Canon(cid);
    assert r.0.students[uid].courses[i] == cs[i];
    assert r.0.students[uid].courses[|cs|].courseId == Canon(cid);
  }

  /**
   * The same re-spelling on the paid path charges the price a second time for
   * a course the student already holds.
   */
  lemma ReSpelledIdChargedTwice(s: State, uid: StudentId, cid: CourseId, now: int)
    requires uid in s.students && Canon(cid) in s.catalogue && Priced(s.catalogue[Canon(cid)])
    requires s.students[uid].credits >= s.catalogue[Canon(cid)].creditPrice.value
    requires Enrolled(s.students[uid], Canon(cid)) && !Enrolled(s.students[uid], cid)
    ensures var r := Step(s, BuyCourse(uid, Some(cid), now));
      && r.1.status == 200
      && Balance(r.0, uid) == Balance(s, uid) - s.catalogue[Canon(cid)].creditPrice.value
      && !DistinctCourses(r.0.students[uid].courses)
  {
    var r := Step(s, BuyCourse(uid, Some(cid), now));
    var cs := s.students[uid].courses;
    var i :| 0 <= i < |cs| && cs[i].courseId == Canon(cid);
    assert r.0.students[uid].courses[i] == cs[i];
    assert r.0.students[uid].courses[|cs|].courseId == Canon(cid);
  }

  /**
   * Such states exist: a well-formed 24-hex object id held in its printed
   * form and sent back in upper case.
   */
  lemma ReSpellingExample()
    ensures var course := SchemaCourse("Algebra", "intro", "t1", "p.png", None);
            var st := NewStudent(Some("Ann"), "ann@x", "h", "");
            var s := State(map["65a1b2c3d4e5f60718293a4b" := st.(courses := [Enrollment("507f1f77bcf86cd799439011", None)])],
                           map[], map["507f1f77bcf86cd799439011" := course]);
            var r := Step(s, AddCourse("65a1b2c3d4e5f60718293a4b", Some("507F1F77BCF86CD799439011")));
      && EnrollmentsDistinct(s) && r.1.status == 201 && !EnrollmentsDistinct(r.0)
  {
    var uid, held, sent := "65a1b2c3d4e5f60718293a4b", "507f1f77bcf86cd799439011", "507F1F77BCF86CD799439011";
    var course := SchemaCourse("Algebra", "intro", "t1", "p.png", None);
    var st := NewStudent(Some("Ann"), "ann@x", "h", "");
    var s := State(map[uid := st.(courses := [Enrollment(held, None)])], map[], map[held := course]);
    assert Canon(sent) == held;
    assert s.students[uid].courses[0].courseId == Canon(sent);
    assert !Enrolled(s.students[uid], sent);
    ReSpelledIdEnrollsTwice(s, uid, sent);
  }

  /** An enrolled student short of credits is told about the credits, not the enrollment. */
  lemma InsufficientCheckedBeforeEnrollment(s: State, uid: StudentId, cid: CourseId, now: int)
    requires Canon(cid) in s.catalogue && Priced(s.catalogue[Canon(cid)]) && uid in s.students
    requires Enrolled(s.students[uid], cid)
    requires s.students[uid].credits < s.catalogue[Canon(cid)].creditPrice.value
    ensures PurchaseCourseWithCredits(s, uid, Some(cid), now).1.body.InsufficientCredits?
  {
  }
}

=== FILE: http.dfy ===
/** The status codes and JSON bodies the handlers answer with. */
module Http {
  import opened Wrappers
  import opened Models

  /** The fixed error messages of the handlers. */
  datatype ErrorMsg =
    | InvalidCreditAmount        // "Invalid credit amount"
    | PaymentCreationFailed      // "Failed to create payment"
    | MissingPurchaseFields      // "Payment ID, user ID, and credit amount are required"
    | StudentNotFound            // "Student not found"
    | CourseNotFound             // "Course not found"
    | NotForCreditPurchase       // "Course is not available for credit purchase"
    | AlreadyEnrolled            // "Already enrolled in this course"
    | MissingCourseId            // "Please provide courseId"
    | AlreadyRegistered          // "You are already registered for this course"
    | MissingSignupFields        // "Please provide name, email and password"
    | UserExists                 // "User already exists"
    | UploadFailed               // "Error uploading profile picture"
    | CreateFailed               // "Error creating user"
    | MissingLoginFields         // "Please provide email and password"
    | InvalidCredentials         // "Invalid email or password"
    | Unauthorized               // "Invalid access token"

  datatype Body =
    | PaymentCreated(paymentId: string, paymentLink: string, amount: int)
    | CreditsAdded(creditsPurchased: int, totalCredits: int)
    | CourseBought(courseId: CourseId, courseTitle: Option<string>, creditsSpent: int, remainingCredits: int)
    | BalanceReport(balance: int, totalPurchased: int, totalSpent: int)
    | InsufficientCredits(required: int, available: int)
    | Done                        // a success with only a fixed message
    | Error(msg: ErrorMsg)

  datatype Response = Response(status: int, body: Body)

  /** A request field that JavaScript treats as truthy: present and not the empty string. */
  predicate Truthy(x: Option<string>)
  {
    x.Some? && x.value != ""
  }

  predicate IsError(r: Response)
  {
    r.status >= 400
  }
}

=== FILE: models.dfy ===
/**
 * The documents the credit ledger reads and writes: students with their
 * enrollment lists and credit balance, credit records with their
 * append-only transaction logs, and the course catalogue.
 */
module Models {
  import opened Wrappers

  /** Database identifiers as the 24-digit hex strings the requests carry. */
  type StudentId = string
  type CourseId = string

  function Lower(c: char): char
  {
    if 'A' <= c <= 'Z' then (c as int + 32) as char else c
  }

  /**
   * The spelling of an id after the database casts it to an object id and
   * prints it back: hex digits in lower case. Lookups by id see this form,
   * and the handlers store ids they write in it.
   */
  function Canon(id: string): (r: string)
    ensures |r| == |id|
    ensures forall i :: 0 <= i < |id| ==> r[i] == Lower(id[i])
    ensures forall i :: 0 <= i < |r| ==> Lower(r[i]) == r[i]
  {
    seq(|id|, i requires 0 <= i < |id| => Lower(id[i]))
  }

  /**
   * Two spellings that differ only in letter case name the same document:
   * the cast maps them to one id.
   */
  lemma CanonIgnoresCase(a: string, b: string)
    requires |a| == |b| && forall i :: 0 <= i < |a| ==> Lower(a[i]) == Lower(b[i])
    ensures Canon(a) == Canon(b)
  {
  }

  /** The printed form is already canonical, so what the handlers store is found again as stored. */
  lemma CanonIsCanonical(id: string)
    ensures IsCanonical(Canon(id))
  {
  }

  /** The id is already spelled the way the database prints it. */
  predicate IsCanonical(id: string)
  {
    Canon(id) == id
  }

  /** One entry of a student's `courses` list. `grade` is optional and unset when enrolling. */
  datatype Enrollment = Enrollment(courseId: CourseId, grade: Option<int>)

  /**
   * A student document. `email` is unique across students (a database index);
   * `password` holds the stored hash. Neither a non-negative `credits` nor
   * distinct course ids is enforced by the schema itself.
   */
  datatype Student = Student(
    name: Option<string>,
    email: string,
    password: string,
    profilePicture: string,
    courses: seq<Enrollment>,
    credits: int)

  /** A student as the schema creates it: no enrollments and a zero balance by default. */
  function NewStudent(name: Option<string>, email: string, password: string, picture: string): (st: Student)
    ensures st.credits == 0 && st.courses == []
    ensures st.email == email && st.password == password
  {
    Student(name, email, password, picture, [], 0)
  }

  /** The student already has an entry for `courseId`. */
  predicate Enrolled(st: Student, courseId: CourseId)
  {
    exists i :: 0 <= i < |st.courses| && st.courses[i].courseId == courseId
  }

  /** No two entries of an enrollment list name the same course. */
  predicate DistinctCourses(courses: seq<Enrollment>)
  {
    forall i, j :: 0 <= i < j < |courses| ==> courses[i].courseId != courses[j].courseId
  }

  /** Appending a course the list does not yet hold keeps the list duplicate-free. */
  lemma AppendKeepsDistinct(courses: seq<Enrollment>, e: Enrollment)
    requires DistinctCourses(courses)
    requires forall i :: 0 <= i < |courses| ==> courses[i].courseId != e.courseId
    ensures DistinctCourses(courses + [e])
  {
  }

  /** A transaction's type is exactly one of the two the schema enumerates. */
  datatype TxKind = Purchase | Spend

  /** The text the controllers write into `description`, kept as the value it is built from. */
  datatype Description =
    | CreditsPurchased(credits: int)    // "Purchased <n> credits"
    | CoursePurchased(title: Option<string>)  // "Purchased course: <title>"

  /**
   * One entry of a credit record's log. Only `kind` and `amount` are required;
   * `timestamp` is the clock reading at the time of writing.
   */
  datatype Transaction = Transaction(
    kind: TxKind,
    amount: int,
    description: Option<Description>,
    paymentId: Option<string>,
    thirdwebTransactionId: Option<string>,
    timestamp: int)

  /** A transaction's effect on the balance: purchases add, spends subtract. */
  function Signed(t: Transaction): int
  {
    if t.kind == Purchase then t.amount else -t.amount
  }

  /** The balance a log justifies: the signed sum of its entries. */
  function SignedSum(txs: seq<Transaction>): int
  {
    if txs == [] then 0 else SignedSum(txs[..|txs| - 1]) + Signed(txs[|txs| - 1])
  }

  lemma {:induction false} SignedSumAppend(txs: seq<Transaction>, t: Transaction)
    ensures SignedSum(txs + [t]) == SignedSum(txs) + Signed(t)
  {
    assert (txs + [t])[..|txs|] == txs;
  }

  /** A credit record: the cached balance, the running totals and the log justifying them. */
  datatype CreditRecord = CreditRecord(
    userId: StudentId,
    amount: int,
    totalPurchased: int,
    totalSpent: int,
    transactions: seq<Transaction>)

  /** One item of a course's `content` list. */
  datatype ContentItem = ContentItem(kind: Option<string>, url: Option<string>)

  /**
   * A course document. Its price field in the schema is `credits`. The credit
   * controller instead reads `creditPrice` and `title`, which the schema does
   * not declare: they are kept here as the optional fields such a read sees.
   */
  datatype Course = Course(
    name: string,
    description: string,
    creator: string,
    photo: string,
    isCompleted: bool,
    credits: int,
    content: seq<ContentItem>,
    creditPrice: Option<int>,
    title: Option<string>)

  /**
   * A course as the schema creates it: `credits` defaults to 0, `isCompleted`
   * to false, the content list starts empty, and the undeclared `creditPrice`
   * and `title` read back as absent.
   */
  function SchemaCourse(name: string, description: string, creator: string, photo: string,
                        credits: Option<int>): (c: Course)
    ensures c.creditPrice == None && c.title == None
    ensures !c.isCompleted && c.content == []
    ensures credits.None? ==> c.credits == 0
  {
    Course(name, description, creator, photo, false, credits.GetOr(0), [], None, None)
  }

  /** The whole persisted state the handlers touch. */
  datatype State = State(
    students: map<StudentId, Student>,
    records: map<StudentId, CreditRecord>,
    catalogue: map<CourseId, Course>)

  /** A student's balance; 0 for an unknown student. */
  function Balance(s: State, id: StudentId): int
  {
    if id in s.students then s.students[id].credits else 0
  }

  /** The record's cached amount; 0 when the user has no record. */
  function RecordAmount(s: State, id: StudentId): int
  {
    if id in s.records then s.records[id].amount else 0
  }

  /** Total credits purchased according to the record; 0 when there is none. */
  function Purchased(s: State, id: StudentId): int
  {
    if id in s.records then s.records[id].totalPurchased else 0
  }

  /** Total credits spent according to the record; 0 when there is none. */
  function Spent(s: State, id: StudentId): int
  {
    if id in s.records then s.records[id].totalSpent else 0
  }

  /** The user's transaction log; empty when there is no record. */
  function Ledger(s: State, id: StudentId): seq<Transaction>
  {
    if id in s.records then s.records[id].transactions else []
  }

  /** The user's enrollment list; empty for an unknown student. */
  function Courses(s: State, id: StudentId): seq<Enrollment>
  {
    if id in s.students then s.students[id].courses else []
  }

  /** Only the balance and the enrollment list differ: the profile fields are kept. */
  predicate SameProfile(a: Student, b: Student)
  {
    a.name == b.name && a.email == b.email && a.password == b.password && a.profilePicture == b.profilePicture
  }

  /** Every student and record other than `id`'s, and the catalogue, are the same in `s'` as in `s`. */
  ghost predicate OthersUnchanged(s: State, s': State, id: StudentId)
  {
    && s'.students.Keys == s.students.Keys
    && (forall k | k in s.students && k != id :: s'.students[k] == s.students[k])
    && (forall k | k != id :: k in s'.records <==> k in s.records)
    && (forall k | k in s.records && k != id :: k in s'.records && s'.records[k] == s.records[k])
    && s'.catalogue == s.catalogue
  }
}

=== FILE: student_controller.dfy ===
/**
 * The student handlers that touch the same documents as the credit ledger:
 * free course registration, and the input and duplicate checks of sign-up
 * and login. Hashing, image upload and token issuing are outside the model;
 * their outcomes arrive as parameters.
 */
module StudentController {
  import opened Wrappers
  import opened Models
  import opened Http

  /** Some student already uses `email`. */
  predicate EmailTaken(s: State, email: string)
  {
    exists id | id in s.students :: s.students[id].email == email
  }

  /**
   * Registering for a course without paying. The caller is the student the
   * authentication layer resolved, so it is known to exist. The course is
   * found through the canonical spelling of the requested id, but the
   * duplicate check compares the stored ids with the id exactly as sent. The
   * list gains one entry holding the canonical id; credits and the ledger are
   * never touched.
   */
  function RegisterForCourse(s: State, uid: StudentId, courseId: Option<CourseId>): (r: (State, Response))
    requires uid in s.students
    ensures r.1.status == 400 <==> !Truthy(courseId)
    ensures r.1.status == 404 <==> Truthy(courseId) && Canon(courseId.value) !in s.catalogue
    ensures r.1.status == 409 <==>
      Truthy(courseId) && Canon(courseId.value) in s.catalogue && Enrolled(s.students[uid], courseId.value)
    ensures r.1.status in {201, 400, 404, 409}
    ensures r.1.status != 201 ==> r.0 == s
    ensures r.1.status == 201 ==>
      && uid in r.0.students && SameProfile(s.students[uid], r.0.students[uid])
      && Courses(r.0, uid) == Courses(s, uid) + [Enrollment(Canon(courseId.value), None)]
      && Balance(r.0, uid) == Balance(s, uid)
      && r.0.records == s.records
      && OthersUnchanged(s, r.0, uid)
  {
    if !Truthy(courseId) then
      (s, Response(400, Error(MissingCourseId)))
    else if Canon(courseId.value) !in s.catalogue then
      (s, Response(404, Error(CourseNotFound)))
    else
      var st := s.students[uid];
      if exists i :: 0 <= i < |st.courses| && st.courses[i].courseId == courseId.value then
        (s, Response(409, Error(AlreadyRegistered)))
      else
        var st' := st.(courses := st.courses + [Enrollment(Canon(courseId.value), None)]);
        (s.(students := s.students[uid := st']), Response(201, Done))
  }

  /**
   * Signing up. `hashed` is the password hash, `upload` the image host's
   * answer (None when the upload failed) and `newId` the id the database
   * assigns. Every rejection comes before anything is created.
   */
  function RegisterUser(s: State, name: Option<string>, email: Option<string>, password: Option<string>,
                        hashed: string, upload: Option<string>, newId: StudentId): (r: (State, Response))
    ensures r.1.status == 400 <==>
      !Truthy(name) || !Truthy(email) || !Truthy(password)
    ensures r.1.status == 409 <==>
      && Truthy(name) && Truthy(email) && Truthy(password)
      && EmailTaken(s, email.value)
    ensures r.1.status in {201, 400, 409, 500}
    ensures r.1.status != 201 ==> r.0 == s
    ensures r.1.status == 201 ==>
      && newId !in s.students
      && !EmailTaken(s, email.value)
      && r.0.students.Keys == s.students.Keys + {newId}
      && (forall k | k in s.students :: r.0.students[k] == s.students[k])
      && r.0.students[newId].email == email.value
      && r.0.students[newId].credits == 0
      && r.0.students[newId].courses == []
      && r.0.records == s.records && r.0.catalogue == s.catalogue
  {
    if !(Truthy(name) && Truthy(email) && Truthy(password)) then
      (s, Response(400, Error(MissingSignupFields)))
    else if exists id | id in s.students :: s.students[id].email == email.value then
      (s, Response(409, Error(UserExists)))
    else if upload.None? then
      (s, Response(500, Error(UploadFailed)))
    else if newId in s.students then
      // the insert fails; ids minted by the database never collide
      (s, Response(500, Error(CreateFailed)))
    else
      var st := NewStudent(name, email.value, hashed, upload.value);
      (s.(students := s.students[newId := st]), Response(201, Done))
  }

  /**
   * Logging in. `matches(password, hash)` is the password-hash comparison.
   * An unknown email and a wrong password give the same answer.
   */
  function LoginUser(s: State, email: Option<string>, password: Option<string>,
                     matches: (string, string) -> bool): (r: Response)
    ensures r.status == 400 <==> !Truthy(email) || !Truthy(password)
    ensures r.status == 400 ==> r.body == Error(MissingLoginFields)
    ensures r.status == 200 <==>
      && Truthy(email) && Truthy(password)
      && exists id | id in s.students :: s.students[id].email == email.value
                                          && matches(password.value, s.students[id].password)
    ensures r.status != 200 && r.status != 400 ==> r == Response(401, Error(InvalidCredentials))
  {
    if !(Truthy(email) && Truthy(password)) then
      Response(400, Error(MissingLoginFields))
    else if !(exists id | id in s.students :: s.students[id].email == email.value) then
      Response(401, Error(InvalidCredentials))
    else if !(exists id | id in s.students :: s.students[id].email == email.value
                                             && matches(password.value, s.students[id].password)) then
      Response(401, Error(InvalidCredentials))
    else
      Response(200, Done)
  }
}

=== FILE: wrappers.dfy ===
/** Optional values: a document field or request field that may be absent. */
module Wrappers {

  datatype Option<+T> = None | Some(value: T) {

    /** The carried value, or `default` when absent. */
    function GetOr(default: T): T
    {
      match this
      case Some(v) => v
      case None => default
    }
  }
}
